=== FILE: README.md ===
# Fruit-box sum puzzle: gameplay core in Dafny

This project models the gameplay engine of a browser puzzle played on a
10 x 17 board of fruits, each worth 1 to 9. The player drags a rectangle
from an anchor cell to the cell under the pointer. On release, the fruits in
the rectangle are cleared if there are at least two of them and they add up
to exactly 10. The score rises by 10 for a pair and 5 more for each further
fruit. A round lasts 120 one-second ticks. The reset and restart buttons
return to the main menu.

Modules, following the page's own structure:

- `Grid`: the constants, the board keyed by `(row, col)` like the page's cell map, creating a board from injected rolls, and clearing cells.
- `Rectangle`: the rectangle scan, including the page's nested loop as a method, and the row-major order in which cells are created.
- `Selector`: rebuilding the selection (the fruit-bearing cells of the rectangle and their total), including the page's loop as a method.
- `Scoring`: the match rule and the points formula.
- `Game`: the session state machine. Each handler is a pure transition on `Session`: start, end, menu, tick, pointer down/move/up and the selection update.
- `Clock`: the countdown over many ticks.
- `Properties`: the round invariant and the effects of a release.
- `Scenarios`: whole drags, including the case where the selection update keeps a stale selection.
- `RestartFinding`: the start routine as the page writes it, and the trace it gets wrong.

Some page functions have no member of their own:

- `resetSelectionState` (script.js:207) is the final step of `Game.PointerUp`. It clears the cells, the fruits, the sum and the anchor, and leaves the drag flag to the release handler.
- `clearTimer` (script.js:132) is the phase leaving `Playing`. `Game.Tick` does nothing in any other phase.
- `createGridCells`, `populateAllCells` and `createFruitInCell` (script.js:193-195) together are `Grid.FreshBoard`.

Two modelling choices recur throughout:

- **Element identity.** The page compares and removes DOM elements. The model numbers every board the page builds (`boardId`) and records which board the selection belongs to (`selBoard`). So "the same cell element" means the same coordinate on the same board.
- **Gating on `Playing`.** Input listeners and the interval timer exist exactly while a round runs, so every handler is gated on `Phase.Playing`.

## Model

| member | source | states |
|---|---|---|
| Rectangle.RectangleSelection | script.js:203 | A coordinate is selected iff it lies between min and max of the two rows and of the two columns and the board has a cell there; the result is strictly row-major, so it has no duplicates |
| Rectangle.CalculateRectangleSelection | script.js:203 | The page's nested row/column loop that skips missing cells produces exactly the rectangle selection |
| Rectangle.RectangleSymmetric | script.js:203 | Swapping anchor and cursor gives the same sequence, order included |
| Rectangle.RectangleSingleCell | script.js:203 | Anchor equal to cursor selects just that one cell |
| Rectangle.GridOrderIndex | script.js:193-194 | On a complete board, the creation order has 170 cells and cell (r, c) comes at index r * 17 + c |
| Rectangle.FreshBoardRoundTrip | script.js:194-195 | Reading a new board back in creation order returns exactly the injected rolls, one per cell |
| Grid.FreshBoard | script.js:193-195 | A new board has exactly the 10 x 17 cells, and every cell holds a fruit worth 1..9 |
| Grid.FreshBoardAt | script.js:194 | The k-th roll lands in cell (k / 17, k % 17) |
| Grid.ClearCells | script.js:201 | Clearing keeps every cell, empties the listed cells and leaves all others unchanged |
| Grid.ClearCellsWellFormed | script.js:201 | Clearing fruits keeps the board well formed |
| Grid.ClearCellsSum | script.js:201 | After clearing, any sum over the board drops by exactly the cleared cells' share of it |
| Rectangle.ClearCellsTotal | script.js:201 | Clearing a sorted in-bounds selection lowers the board total by exactly the selection's sum |
| Selector.Collect | script.js:202 | The kept cells are the scanned sequence with empty and missing cells dropped, in scan order (for any scan), so a row-major scan gives a row-major selection; the sum counts empty cells as 0 and equals the total of the kept cells |
| Selector.Recompute | script.js:202 | The rebuilt selection holds exactly the fruit cells of the rectangle, row-major, and its sum is their total |
| Selector.ScanSelection | script.js:202 | The page's push-and-accumulate loop over the rectangle computes exactly the recomputed selection |
| Selector.RecomputeSingleCell | script.js:202 | A drag that has not left its filled first cell selects that one fruit with its value as sum |
| Selector.RecomputeSymmetric | script.js:202-203 | The rebuilt selection does not depend on which corner is the anchor |
| Scoring.CalculateScore | script.js:209 | Points for n fruits are at least 10, and exactly 10 for two or fewer |
| Scoring.ScoreGrowth | script.js:209 | Each fruit beyond the second adds exactly 5; 2 fruits score 10 and 3 score 15 |
| Scoring.SingleCellNeverMatches | script.js:201 | A selection of at most one fruit never matches, whatever its sum |
| Scoring.SingleFruitBelowTarget | script.js:195 | On a board of 1..9 fruits, a single selected fruit is below the target of 10 |
| Scoring.MatchRemovesTargetSum | script.js:201 | Clearing a matched valid selection lowers the board total by exactly 10 |
| Game.StartGame | script.js:40-51 | Corrected start (the page's own is `RestartFinding.StartGameAsWritten`, see Findings): starting gives a running round with score 0, 120 seconds, a new board filled cell by cell from the rolls, and no drag; the resulting session satisfies the round invariant |
| Game.EndGame | script.js:135-153 | The round is over, with board, score and time left on display unchanged; the drag flag, anchor, selection and board number are left as they were |
| Game.ShowMainMenu | script.js:105-127 | The menu is shown and the board is discarded, but the score and time left are kept, and the drag flag, anchor, selection and board number are left as they were |
| Game.Tick | script.js:130 | Outside a round a tick changes nothing. In a round it takes one second off and ends the round iff time reaches 0, so the round keeps running while more than one second is left; board, score, selection, drag flag and anchor are never touched |
| Game.UpdateSelection | script.js:202 | Without an anchor, or with the cursor on the last selected cell of the current board, nothing changes; otherwise only the selection changes, and it is now tied to the current board, valid for it, and holds exactly the fruit cells between anchor and cursor |
| Game.PointerDown | script.js:199 | A press is ignored outside a round or off a fruit; otherwise a drag starts anchored at the pressed cell, and board, score and clock are untouched |
| Game.PointerMove | script.js:200 | A move is ignored outside a round, without a drag, or off the board; it never changes board, score, anchor or clock |
| Game.PointerUp | script.js:201 | A release is ignored outside a round or without a drag; otherwise the drag and selection are cleared, the score rises by calculateScore(count) iff the selection matches, and a non-match leaves the board alone |
| Clock.Ticks | script.js:130 | Any number of ticks leaves board, score and selection unchanged and never restarts a round |
| Clock.CountdownRuns | script.js:130 | While n is below the time left, n ticks subtract exactly n and the round keeps running |
| Clock.CountdownExpires | script.js:130 | The round ends on exactly the tick that uses up the last second, and is still running one tick earlier |
| Clock.StoppedClockIgnoresTicks | script.js:132 | Once the interval is cleared, ticks change nothing |
| Clock.RoundLastsGameDuration | script.js:130 | A fresh round runs through tick 119, ends on tick 120 at time 0, and does not change on a further tick |
| Clock.ExpiryAbandonsDrag | script.js:135-139 | If time runs out mid-drag, the round is over, the following release is ignored, and board and score keep their values from before expiry |
| Properties.StepPreservesConsistent | script.js:199-202 | With the corrected start (`Game.StartGame`), every event keeps the round invariant: full 1..9 board, time at least 1, drag iff anchor, and a selection valid for the current board |
| Properties.RunPreservesConsistent | script.js:199-202 | With the corrected start (`Game.StartGame`), every event sequence keeps the round invariant |
| Properties.ReachableConsistent | script.js:25-34 | With the corrected start (`Game.StartGame`), every session reachable from page load satisfies the round invariant; with the page's own start this fails (see Findings) |
| Properties.MatchClearsAndScores | script.js:201 | In a consistent round (every round reached with the corrected start `Game.StartGame`; see Findings), a matched release empties exactly the selected cells, leaves all others unchanged, adds calculateScore(count), and lowers the board total by 10 |
| Properties.NonMatchChangesNothing | script.js:201 | A non-matching release keeps board and score, clears the selection and anchor, and flashes iff some fruit was selected |
| Properties.StepAccounting | script.js:201 | In a consistent round (every round reached with the corrected start `Game.StartGame`; see Findings), a matched release lowers the board total by exactly 10 and raises the score by at least 10; any other pointer event or tick keeps the board total and does not lower the score |
| Properties.RunAccounting | script.js:201 | In a consistent round (every round reached with the corrected start `Game.StartGame`; see Findings), over any run of pointer events and ticks, the board total falls by exactly 10 per matched release and by nothing else, and the score rises by at least as much |
| Properties.FruitsOnlyDisappear | script.js:201 | Over any run of pointer events and ticks, no cell is added or removed, and every cell that still holds a fruit holds the same fruit it held before the run, so fruit is only ever removed, never moved or refilled |
| Properties.FrozenOutsideRound | script.js:199-201 | Outside a round, any sequence of pointer events and ticks leaves the session unchanged |
| Properties.ScoreNeverDecreases | script.js:201 | Without a start, the score never falls and the time left never rises |
| Properties.DownSelectsPressedFruit | script.js:199 | Pressing a fruit when no drag is in progress selects just that fruit, which does not match |
| Properties.MoveIdempotent | script.js:200 | Moving twice onto the same cell has the effect of moving once |
| Properties.MoveSelectsRectangle | script.js:200 | A move off the last selected cell selects exactly the fruits of the new rectangle, with their total as sum |
| Scenarios.PairCells | script.js:202-203 | When (0,0) and (0,1) both hold a fruit, the rebuilt selection for the rectangle between them is exactly those two cells, in row-major order |
| Scenarios.PairSelection | script.js:202 | Dragging over two adjacent fruits selects both, in order, with the sum of their values |
| Scenarios.TripleSelection | script.js:202 | Dragging over three fruits in a row selects all three, with the sum of their values |
| Scenarios.PressCorner | script.js:199 | Pressing the fruit at (0,0) with no drag in progress starts a drag anchored there that holds just that fruit |
| Scenarios.TripleCells | script.js:202-203 | When (0,0), (0,1) and (0,2) all hold a fruit, the rebuilt selection for the rectangle from (0,0) to (0,2) is exactly those three cells, in row-major order |
| Scenarios.DragPairState | script.js:199-200 | After pressing (0,0) and moving to (0,1), a drag anchored at (0,0) holds both fruits |
| Scenarios.PairMatches | script.js:201 | A 4 next to a 6: the release clears both and scores 10 |
| Scenarios.DragTripleState | script.js:199-200 | After pressing (0,0) and moving to (0,2), the selection is the rebuilt rectangle selection |
| Scenarios.TripleMatches | script.js:201 | 3, 3 and 4 in a row: the release clears all three and scores 15 |
| Scenarios.PairFallsShort | script.js:201 | A 3 next to a 4: the release flashes, and board and score stay unchanged |
| Scenarios.StaleRectangleOrder | script.js:202 | With (1,2) and row 2 empty, the fruits of the (0,0)-(2,2) rectangle are five cells ending at (1,1) |
| Scenarios.StaleRectangleCells | script.js:202 | The same holds for the selection the page rebuilds for that rectangle |
| Scenarios.GuardKeepsStaleSelection | script.js:202 | Moving back onto the last selected cell (1,1) leaves the session unchanged, so (0,2) stays selected although it is outside the new rectangle |
| RestartFinding.StartGameAsWritten | script.js:40-51 | The page's start: running round, score 0, 120 seconds, full new board, but the drag flag, anchor and selection carry over |
| RestartFinding.AbandonedDragState | script.js:105-127 | A drag cut short by the clock survives the trip to the menu, with its 10-point selection tied to the old board |
| RestartFinding.StaleDragScoresAfterRestart | script.js:40-51 | As written, the restarted round breaks the round invariant, and a release with no press scores 10 without touching the new board |
| RestartFinding.PhantomDragAfterRestart | script.js:200-202 | As written, after the restart, moving the pointer without pressing selects fruits of the new board, and the release clears and scores them |
| RestartFinding.RestartForgetsDrag | script.js:40-51 | With the corrected start, the same trace ends with the release ignored and the score at 0 |
| RestartFinding.StartedRoundIgnoresStaleInput | script.js:40-51 | With the corrected start, a release or move before any press leaves a new round unchanged |
| RestartFinding.DemoFill | script.js:195 | The demonstration rolls are 170 values in 1..9, starting with 4 and 6 |
| RestartFinding.DemoRoundIsPairRound | script.js:40-51 | The first round started from page load with the demonstration rolls has the 4 and the 6 in place and no drag, so the finding's trace is reachable |

## Left out

- DOM construction, CSS classes, `querySelector`, and the pixel-to-cell lookup `elementFromPoint` (script.js:193, 196-197, 200, 204-206). These are presentation. Cells are `(row, col)` coordinates, and a pointer event names the cell it is over.
- The rejection flash and its `setTimeout` (script.js:208). It is a timed visual effect. Only its condition is modelled, as `Game.ReleaseFlashes`.
- Wall-clock timing of `setInterval` (script.js:130). One `Second` event stands for one firing of the interval.
- Audio, the mute toggle, icon URLs and the explanation overlay (script.js:156-184). These are browser media and UI.
- Menu visibility and button wiring (script.js:54-127). Only the state changes those handlers make are modelled.
- `Math.random` (script.js:195). It is replaced by an injected sequence of 170 values in 1..9, consumed in the page's row-major order.
- Mouse-button checks (`event.button !== 0`, script.js:199 and 201). Every pointer event is taken to be the primary button.
- `getCellInfo` returning null (script.js:205). Every cell element has a row and column, so that branch cannot be reached on the page's own cells.
- Game.Step: its contract only states that non-start events keep the board number. The properties of events are proved about the individual handlers and in `Properties`.

## Findings

| source | as written | input that shows it | evidently intended | confidence | as-written member | corrected member |
|---|---|---|---|---|---|---|
| script.js:40-51 | The start routine resets the game-over flag, board, score and clock, but not `isSelecting`, `startCellInfo` or `currentSelection`. A drag in progress when the clock expires survives into the next round. | A round with 4 at (0,0) and 6 at (0,1). Press (0,0), move to (0,1), let the 120 seconds run out, click restart, then start. A release without a press then scores 10 in the new round for fruit of the old board. If the new board also has 4 at (0,0) and 6 at (0,1), moving the pointer to (0,1) without pressing selects them, and the release that follows clears them and scores 10. | A new round starts with no drag. Pointer moves and releases do nothing until a fruit is pressed. | not executed | RestartFinding.StaleDragScoresAfterRestart | Game.StartGame |

`RestartFinding.PhantomDragAfterRestart` shows the same defect through a pointer move. `RestartFinding.RestartForgetsDrag` and `RestartFinding.StartedRoundIgnoresStaleInput` prove the corrected behaviour. The rest of the model uses the corrected `Game.StartGame`.

## Behaviour of the code worth knowing

- **Selection-update guard.** The early return in the selection update fires whenever the cursor is over the last selected cell element. That is not the same as the rectangle being unchanged. The model keeps the guard as written, and `Scenarios.GuardKeepsStaleSelection` shows a move that keeps a selection no longer matching the rectangle.
- **Start while running.** Starting clears any running timer and begins a new round whatever the current phase. `Game.StartGame` accepts any session.
- **Score after returning to the menu.** Returning to the menu tears down the board but leaves the score and time left as they were until the next start. `Game.ShowMainMenu` keeps them too.

=== FILE: clock.dfy ===
/** The countdown of a round: the interval fires once a second, takes one off
    the time left, and ends the round on the tick that brings it to zero. */
module Clock {
  import opened Grid
  import opened Game

  /** n seconds of the interval timer. */
  function Ticks(s: Session, n: nat): (r: Session)
    ensures r.board == s.board && r.score == s.score && r.sel == s.sel
    ensures r.phase == Playing ==> s.phase == Playing
  {
    if n == 0 then s else Tick(Ticks(s, n - 1))
  }

  /** While time remains, each tick takes exactly one second off and the
      round keeps running. */
  lemma {:induction false} CountdownRuns(s: Session, n: nat)
    requires s.phase == Playing && n < s.timeLeft
    ensures Ticks(s, n) == s.(timeLeft := s.timeLeft - n)
  {
    if n > 0 {
      CountdownRuns(s, n - 1);
    }
  }

  /** The round ends on the tick that uses up the last second, and nothing
      but the phase and the clock changes. */
  lemma CountdownExpires(s: Session)
    requires s.phase == Playing && s.timeLeft >= 1
    ensures Ticks(s, s.timeLeft) == s.(phase := Over, timeLeft := 0)
    ensures Ticks(s, s.timeLeft - 1).phase == Playing
  {
    CountdownRuns(s, s.timeLeft - 1);
  }

  /** Once the round is over (or before any has started) the clock stands
      still. */
  lemma {:induction false} StoppedClockIgnoresTicks(s: Session, n: nat)
    requires s.phase != Playing
    ensures Ticks(s, n) == s
  {
    if n > 0 {
      StoppedClockIgnoresTicks(s, n - 1);
    }
  }

  /** A freshly started round ends on exactly the 120th tick and not before,
      with the clock at zero and the score as it was. */
  lemma RoundLastsGameDuration(s: Session, values: seq<int>)
    requires ValidFill(values)
    ensures Ticks(StartGame(s, values), GameDuration - 1).phase == Playing
    ensures Ticks(StartGame(s, values), GameDuration).phase == Over
    ensures Ticks(StartGame(s, values), GameDuration).timeLeft == 0
    ensures Ticks(StartGame(s, values), GameDuration + 1) == Ticks(StartGame(s, values), GameDuration)
  {
    var t := StartGame(s, values);
    CountdownExpires(t);
  }

  /** If the clock runs out in the middle of a drag, the release that follows
      is ignored: board and score stay frozen at their values from before
      the expiry. */
  lemma ExpiryAbandonsDrag(s: Session)
    requires s.phase == Playing && s.selecting && s.timeLeft >= 1
    ensures var t := Ticks(s, s.timeLeft);
      && t.phase == Over
      && PointerUp(t) == t
      && t.board == s.board && t.score == s.score
  {
    CountdownExpires(s);
  }
}

=== FILE: findings.dfy ===
/** Starting a round does not forget a drag that was in progress when the
    previous round ended. The page's start routine resets the game-over flag,
    the board, the score and the clock, but leaves the drag flag, the anchor
    and the selection as they were. A drag cut short by the clock therefore
    survives a trip through the menu, and the first release in the new round
    scores the old round's selection. StartGame in Game resets the drag; this
    module keeps the start as the page has it and plays the trace. */
module RestartFinding {
  import opened Grid
  import opened Selector
  import opened Game
  import opened Clock
  import opened Scenarios

  /** The page's start routine as it stands: the drag state carries over. */
  function StartGameAsWritten(s: Session, values: seq<int>): (r: Session)
    requires ValidFill(values)
    ensures r.phase == Playing && r.score == 0 && r.timeLeft == GameDuration
    ensures r.boardId != s.boardId
    ensures forall p :: InBounds(p) ==> Filled(r.board, p)
    ensures r.selecting == s.selecting && r.anchor == s.anchor && r.sel == s.sel && r.selBoard == s.selBoard
  {
    s.(phase := Playing, board := FreshBoard(values), boardId := s.boardId + 1, score := 0, timeLeft := GameDuration)
  }

  /** Drag over a 4 and a 6 without releasing, let the clock run out, and go
      back to the menu. */
  function AbandonDrag(s: Session): Session
    requires s.timeLeft >= 0
  {
    ShowMainMenu(Ticks(DragPair(s), s.timeLeft))
  }

  /** A round with a 4 and a 6 in its top-left corner and no drag yet. */
  ghost predicate PairRound(s: Session) {
    && s.phase == Playing && !s.selecting && s.sel == NoSelection && s.timeLeft >= 1
    && Pos(0, 0) in s.board && s.board[Pos(0, 0)] == Fruit(4)
    && Pos(0, 1) in s.board && s.board[Pos(0, 1)] == Fruit(6)
  }

  /** After abandoning the drag the menu is shown with the drag still in
      progress, its selection worth 10 and tied to the old board. */
  lemma AbandonedDragState(s: Session)
    requires PairRound(s)
    ensures AbandonDrag(s).phase == Menu && AbandonDrag(s).score == s.score
    ensures AbandonDrag(s).selecting && AbandonDrag(s).anchor == Some(Pos(0, 0))
    ensures AbandonDrag(s).sel == Selection([Pos(0, 0), Pos(0, 1)], 10)
    ensures AbandonDrag(s).selBoard == s.boardId && AbandonDrag(s).boardId == s.boardId
  {
    DragPairState(s);
    CountdownExpires(DragPair(s));
  }

  /** As written: after the restart, a release with no press in the new round
      scores 10 for fruits of the old board, and the new board is left as it
      was. The restarted session already breaks the round invariant. */
  lemma StaleDragScoresAfterRestart(s: Session, values: seq<int>)
    requires PairRound(s) && ValidFill(values)
    ensures var r := StartGameAsWritten(AbandonDrag(s), values);
      && r.score == 0
      && !Consistent(r)
      && PointerUp(r).score == 10
      && PointerUp(r).board == r.board
  {
    AbandonedDragState(s);
  }

  /** As written: after the restart the old anchor is still live, so merely
      moving the pointer over the new board, with no press, selects the 4 and
      the 6 of the new board, and the release clears and scores them. */
  lemma PhantomDragAfterRestart(s: Session, values: seq<int>)
    requires PairRound(s) && ValidFill(values)
    requires StartGameAsWritten(AbandonDrag(s), values).board[Pos(0, 0)] == Fruit(4)
    requires StartGameAsWritten(AbandonDrag(s), values).board[Pos(0, 1)] == Fruit(6)
    ensures var r := PointerMove(StartGameAsWritten(AbandonDrag(s), values), Pos(0, 1));
      && r.sel == Selection([Pos(0, 0), Pos(0, 1)], 10)
      && PointerUp(r).score == 10
      && PointerUp(r).board == ClearCells(r.board, [Pos(0, 0), Pos(0, 1)])
  {
    var r := StartGameAsWritten(AbandonDrag(s), values);
    AbandonedDragState(s);
    assert InBounds(Pos(0, 0)) && InBounds(Pos(0, 1));
    assert !OnLastCell(r, Pos(0, 1));
    MoveRebuilds(r, Pos(0, 1));
    PairSelection(r.board);
  }

  /** Corrected: after the same trace, the restarted round ignores the
      release and keeps its score at 0. */
  lemma RestartForgetsDrag(s: Session, values: seq<int>)
    requires PairRound(s) && ValidFill(values)
    ensures var r := StartGame(AbandonDrag(s), values);
      && PointerUp(r) == r
      && PointerUp(r).score == 0
  {
  }

  /** Corrected, for every session: a started round has no drag, so neither
      a release nor a move changes it until a fruit is pressed. */
  lemma StartedRoundIgnoresStaleInput(s: Session, values: seq<int>, p: Pos)
    requires ValidFill(values)
    ensures PointerUp(StartGame(s, values)) == StartGame(s, values)
    ensures PointerMove(StartGame(s, values), p) == StartGame(s, values)
  {
  }

  /** A board whose first two fruits are a 4 and a 6, and 1 everywhere else. */
  function DemoFill(): (values: seq<int>)
    ensures ValidFill(values)
    ensures values[0] == 4 && values[1] == 6
  {
    seq(Rows * Cols, i => if i == 0 then 4 else if i == 1 then 6 else 1)
  }

  /** The trace is reachable from page load: the first round started with
      DemoFill is such a round. */
  lemma DemoRoundIsPairRound()
    ensures PairRound(StartGame(PageLoad, DemoFill()))
  {
    FreshBoardAt(DemoFill(), 0);
    FreshBoardAt(DemoFill(), 1);
  }
}

=== FILE: game.dfy ===
/** One browser session of the game as a state machine: the menu, a running
    round with its countdown, the drag that builds a selection, and the end
    of the round. Every handler of the page is a pure transition on Session;
    the page's input listeners exist exactly while a round is running, and
    its interval timer ticks exactly then, so both are gated on Playing. */
module Game {
  import opened Grid
  import opened Rectangle
  import opened Selector
  import opened Scoring

  /** Seconds in a round. */
  const GameDuration: int := 120

  datatype Phase = Menu | Playing | Over

  /** The page's state variables. boardId counts the boards the page has
      built: cell elements belong to one board, so "the same element" is the
      same coordinate on the same board. selBoard records which board the
      current selection's elements belong to. */
  datatype Session = Session(
    phase: Phase,
    board: Board,
    boardId: nat,
    score: int,
    timeLeft: int,
    selecting: bool,
    anchor: Option<Pos>,
    sel: Selection,
    selBoard: nat)

  /** The page as loaded: the menu is shown and no board has been built. */
  const PageLoad: Session := Session(Menu, map[], 0, 0, GameDuration, false, None, NoSelection, 0)

  /** What a running round keeps true between events: the board is the full
      grid with fruits 1..9, the clock has not run out, a drag is in progress
      exactly when there is an anchor, no drag means no selection, and the
      selection matches the current board. */
  ghost predicate Consistent(s: Session) {
    s.phase == Playing ==>
      && WellFormed(s.board)
      && s.timeLeft >= 1
      && (s.selecting <==> s.anchor.Some?)
      && (!s.selecting ==> s.sel == NoSelection)
      && Valid(s.board, s.sel)
      && (s.sel.cells != [] ==> s.selBoard == s.boardId)
  }

  // ---------------------------------------------------------------------------
  // Round life cycle

  /** Start (or restart) a round on a new board filled from values: score
      and clock reset, any earlier drag forgotten. */
  function StartGame(s: Session, values: seq<int>): (r: Session)
    requires ValidFill(values)
    ensures r.phase == Playing && r.score == 0 && r.timeLeft == GameDuration
    ensures r.boardId != s.boardId
    ensures forall p :: InBounds(p) ==> Filled(r.board, p)
    ensures Values(r.board, GridOrder(r.board)) == values
    ensures !r.selecting && r.anchor == None && r.sel == NoSelection
    ensures Consistent(r)
  {
    FreshBoardRoundTrip(values);
    Session(Playing, FreshBoard(values), s.boardId + 1, 0, GameDuration, false, None, NoSelection, s.selBoard)
  }

  /** The round is over: input and the clock stop, the board and score stay
      on display. A drag in progress is not abandoned: its flag, anchor and
      selection stay as they were. */
  function EndGame(s: Session): (r: Session)
    ensures r.phase == Over
    ensures r.board == s.board && r.score == s.score && r.timeLeft == s.timeLeft
    ensures r.boardId == s.boardId && r.selecting == s.selecting && r.anchor == s.anchor
    ensures r.sel == s.sel && r.selBoard == s.selBoard
  {
    s.(phase := Over)
  }

  /** Back to the menu: input and the clock stop and the board is torn down;
      the last score and time stay on display, and so does any drag state. */
  function ShowMainMenu(s: Session): (r: Session)
    ensures r.phase == Menu && r.board == map[]
    ensures r.score == s.score && r.timeLeft == s.timeLeft
    ensures r.boardId == s.boardId && r.selecting == s.selecting && r.anchor == s.anchor
    ensures r.sel == s.sel && r.selBoard == s.selBoard
  {
    s.(phase := Menu, board := map[])
  }

  /** One second of the round's interval: the clock counts down and the round
      ends when it reaches zero. No interval runs outside a round. */
  function Tick(s: Session): (r: Session)
    ensures s.phase != Playing ==> r == s
    ensures s.phase == Playing ==> r.timeLeft == s.timeLeft - 1
    ensures s.phase == Playing ==> (r.phase == Over <==> s.timeLeft <= 1)
    ensures r.phase == Playing ==> s.phase == Playing
    ensures s.phase == Playing && s.timeLeft > 1 ==> r.phase == Playing
    ensures r.board == s.board && r.score == s.score && r.sel == s.sel
    ensures r.selecting == s.selecting && r.anchor == s.anchor
  {
    if s.phase != Playing then s
    else
      var t := s.(timeLeft := s.timeLeft - 1);
      if t.timeLeft <= 0 then EndGame(t) else t
  }

  // ---------------------------------------------------------------------------
  // Pointer input

  /** The cursor is over the very cell element the selection ended on last
      time, so the selection is kept as it is. */
  predicate OnLastCell(s: Session, cursor: Pos) {
    |s.sel.cells| > 0 && s.selBoard == s.boardId && s.sel.cells[|s.sel.cells| - 1] == cursor
  }

  /** Rebuild the selection for the rectangle from the anchor to the cursor,
      unless there is no anchor or the cursor is still on the last selected
      cell. */
  function UpdateSelection(s: Session, cursor: Pos): (r: Session)
    ensures s.anchor.None? || OnLastCell(s, cursor) ==> r == s
    ensures s.anchor.Some? && !OnLastCell(s, cursor) ==>
      && r == s.(sel := r.sel, selBoard := s.boardId)
      && Valid(s.board, r.sel)
      && (forall q :: q in r.sel.cells <==> InRectangle(s.anchor.value, cursor, q) && Filled(s.board, q))
  {
    if s.anchor.None? then s
    else if OnLastCell(s, cursor) then s
    else s.(sel := Recompute(s.board, s.anchor.value, cursor), selBoard := s.boardId)
  }

  /** Pressing on a cell that holds a fruit starts a drag anchored there;
      anywhere else, or outside a round, nothing happens. */
  function PointerDown(s: Session, p: Pos): (r: Session)
    ensures s.phase != Playing || !Filled(s.board, p) ==> r == s
    ensures s.phase == Playing && Filled(s.board, p) ==> r.selecting && r.anchor == Some(p)
    ensures r.board == s.board && r.score == s.score && r.phase == s.phase && r.timeLeft == s.timeLeft
  {
    if s.phase != Playing || !Filled(s.board, p) then s
    else UpdateSelection(s.(selecting := true, anchor := Some(p)), p)
  }

  /** Moving the pointer over a cell during a drag retargets the selection. */
  function PointerMove(s: Session, p: Pos): (r: Session)
    ensures s.phase != Playing || !s.selecting || p !in s.board ==> r == s
    ensures r.board == s.board && r.score == s.score && r.anchor == s.anchor
    ensures r.phase == s.phase && r.selecting == s.selecting && r.timeLeft == s.timeLeft
  {
    if s.phase != Playing || !s.selecting || p !in s.board then s
    else UpdateSelection(s, p)
  }

  /** Releasing ends the drag. A selection of two or more fruits adding up to
      the target is cleared from the board and scored; any other selection
      only flashes. Either way the selection is forgotten. */
  function PointerUp(s: Session): (r: Session)
    ensures s.phase != Playing || !s.selecting ==> r == s
    ensures s.phase == Playing && s.selecting ==>
      && !r.selecting && r.anchor == None && r.sel == NoSelection
      && r.score == (if IsMatch(s.sel) then s.score + CalculateScore(|s.sel.cells|) else s.score)
      && (!IsMatch(s.sel) ==> r.board == s.board)
    ensures r.phase == s.phase && r.timeLeft == s.timeLeft && r.board.Keys == s.board.Keys
  {
    if s.phase != Playing || !s.selecting then s
    else
      var matched := IsMatch(s.sel);
      var board := if matched && s.selBoard == s.boardId then ClearCells(s.board, s.sel.cells) else s.board;
      var score := if matched then s.score + CalculateScore(|s.sel.cells|) else s.score;
      s.(board := board, score := score, selecting := false, anchor := None, sel := NoSelection)
  }

  /** A release that is not a match but did select some fruit makes the page
      flash the selected cells as a rejection. */
  predicate ReleaseFlashes(s: Session) {
    s.phase == Playing && s.selecting && !IsMatch(s.sel) && |s.sel.cells| > 0
  }

  // ---------------------------------------------------------------------------
  // Events

  /** What the page reacts to: the start button (with the rolls for the new
      board), the reset and restart buttons, the pointer on a cell, the
      pointer released, and one second of the interval timer. */
  datatype Event =
    | StartClicked(values: seq<int>)
    | MenuClicked
    | Down(cell: Pos)
    | Move(cell: Pos)
    | Up
    | Second

  predicate WellFormedEvent(e: Event) {
    e.StartClicked? ==> ValidFill(e.values)
  }

  function Step(s: Session, e: Event): (r: Session)
    requires WellFormedEvent(e)
    ensures !e.StartClicked? ==> r.boardId == s.boardId
  {
    match e
    case StartClicked(values) => StartGame(s, values)
    case MenuClicked => ShowMainMenu(s)
    case Down(p) => PointerDown(s, p)
    case Move(p) => PointerMove(s, p)
    case Up => PointerUp(s)
    case Second => Tick(s)
  }

  function Run(s: Session, es: seq<Event>): (r: Session)
    requires forall i :: 0 <= i < |es| ==> WellFormedEvent(es[i])
    decreases |es|
  {
    if es == [] then s else Run(Step(s, es[0]), es[1..])
  }
}

=== FILE: grid.dfy ===
/** The board of the puzzle: a fixed matrix of Rows x Cols cells addressed by
    (row, col). A cell holds a fruit worth MinValue..MaxValue, or nothing once
    a match has cleared it. The board is keyed by coordinate, like the page's
    cell map, so a board that has been discarded is simply the empty map. */
module Grid {

  const Rows: int := 10
  const Cols: int := 17
  const TargetSum: int := 10
  const MinValue: int := 1
  const MaxValue: int := 9

  datatype Option<T> = None | Some(value: T)

  datatype Pos = Pos(row: int, col: int)

  datatype Cell = Empty | Fruit(value: int)

  type Board = map<Pos, Cell>

  predicate InBounds(p: Pos) {
    0 <= p.row < Rows && 0 <= p.col < Cols
  }

  /** The cell exists on the board and still holds a fruit. */
  predicate Filled(b: Board, p: Pos) {
    p in b && b[p].Fruit?
  }

  /** The coordinates of the board's cells that still hold a fruit. */
  function FruitCells(b: Board): (cells: set<Pos>)
    ensures forall p :: p in cells <==> Filled(b, p)
  {
    set p | p in b && b[p].Fruit?
  }

  /** What a cell contributes to a sum: its fruit's value, or nothing. */
  function ValueAt(b: Board, p: Pos): int {
    if Filled(b, p) then b[p].value else 0
  }

  /** A board of the running game: exactly the in-bounds cells, and every
      fruit worth MinValue..MaxValue. */
  ghost predicate WellFormed(b: Board) {
    && (forall p :: p in b <==> InBounds(p))
    && (forall p :: Filled(b, p) ==> MinValue <= b[p].value <= MaxValue)
  }

  // ---------------------------------------------------------------------------
  // Row-major order

  predicate Before(p: Pos, q: Pos) {
    p.row < q.row || (p.row == q.row && p.col < q.col)
  }

  predicate StrictlySorted(ps: seq<Pos>) {
    forall i, j :: 0 <= i < j < |ps| ==> Before(ps[i], ps[j])
  }

  lemma SortedPrefix(ps: seq<Pos>, n: nat)
    requires StrictlySorted(ps) && n <= |ps|
    ensures StrictlySorted(ps[..n])
    ensures forall q :: q in ps[..n] && n < |ps| ==> Before(q, ps[n])
  {
  }

  lemma SortedConcat(xs: seq<Pos>, ys: seq<Pos>)
    requires StrictlySorted(xs) && StrictlySorted(ys)
    requires forall x, y :: x in xs && y in ys ==> Before(x, y)
    ensures StrictlySorted(xs + ys)
  {
    forall i, j | 0 <= i < j < |xs + ys|
      ensures Before((xs + ys)[i], (xs + ys)[j])
    {
      if j < |xs| {
      } else if i >= |xs| {
        assert (xs + ys)[i] == ys[i - |xs|] && (xs + ys)[j] == ys[j - |xs|];
      } else {
        assert (xs + ys)[i] == xs[i] && xs[i] in xs;
        assert (xs + ys)[j] == ys[j - |xs|] && ys[j - |xs|] in ys;
      }
    }
  }

  lemma HeadIsMember(s: seq<Pos>)
    requires s != []
    ensures s[0] in s
  {
  }

  /** Two row-major sorted sequences with the same elements are the same
      sequence: membership and order pin a selection down completely. */
  lemma {:induction false} SortedUnique(xs: seq<Pos>, ys: seq<Pos>)
    requires StrictlySorted(xs) && StrictlySorted(ys)
    requires forall p :: p in xs <==> p in ys
    ensures xs == ys
    decreases |xs|
  {
    if xs == [] || ys == [] {
      if xs != [] {
        HeadIsMember(xs);
        assert false;
      }
      if ys != [] {
        HeadIsMember(ys);
        assert false;
      }
    } else {
      assert xs[0] in ys && ys[0] in xs;
      var j :| 0 <= j < |ys| && ys[j] == xs[0];
      var i :| 0 <= i < |xs| && xs[i] == ys[0];
      var x, y := xs[0], ys[0];
      assert xs[i] == y && ys[j] == x;
      assert x == y;
      forall p
        ensures p in xs[1..] <==> p in ys[1..]
      {
        if p in xs[1..] {
          var i :| 1 <= i < |xs| && xs[i] == p;
          assert Before(xs[0], xs[i]);
          assert p in ys;
        }
        if p in ys[1..] {
          var j :| 1 <= j < |ys| && ys[j] == p;
          assert Before(ys[0], ys[j]);
          assert p in xs;
        }
      }
      SortedUnique(xs[1..], ys[1..]);
      assert xs == [xs[0]] + xs[1..] && ys == [ys[0]] + ys[1..];
    }
  }

  // ---------------------------------------------------------------------------
  // Filtering and summing sequences of coordinates

  /** The elements of ps that are in keep, in their original order. */
  function Filter(ps: seq<Pos>, keep: set<Pos>): (r: seq<Pos>)
    ensures forall p {:trigger p in r} :: p in r <==> p in ps && p in keep
    ensures |r| <= |ps|
  {
    if ps == [] then []
    else
      var init := Filter(ps[..|ps| - 1], keep);
      var last := ps[|ps| - 1];
      if last in keep then init + [last] else init
  }

  /** Filtering keeps row-major order. */
  lemma {:induction false} FilterSorted(ps: seq<Pos>, keep: set<Pos>)
    requires StrictlySorted(ps)
    ensures StrictlySorted(Filter(ps, keep))
    decreases |ps|
  {
    if ps != [] {
      var init := ps[..|ps| - 1];
      SortedPrefix(ps, |ps| - 1);
      FilterSorted(init, keep);
      if ps[|ps| - 1] in keep {
        SortedConcat(Filter(init, keep), [ps[|ps| - 1]]);
      }
    }
  }

  /** Filtering a row-major sequence, whatever is kept, stays row-major. */
  lemma FilterKeepsOrder(ps: seq<Pos>, keep: set<Pos>)
    ensures StrictlySorted(ps) ==> StrictlySorted(Filter(ps, keep))
  {
    if StrictlySorted(ps) {
      FilterSorted(ps, keep);
    }
  }

  /** The coordinates of ps that are among cells. */
  function Among(ps: seq<Pos>, cells: seq<Pos>): seq<Pos> {
    Filter(ps, set p | p in cells)
  }

  /** The total of the values at ps; empty or missing cells count 0. */
  function SumOf(b: Board, ps: seq<Pos>): int {
    if ps == [] then 0 else SumOf(b, ps[..|ps| - 1]) + ValueAt(b, ps[|ps| - 1])
  }

  /** The values read at ps, in order (0 for an empty cell). */
  function Values(b: Board, ps: seq<Pos>): (vs: seq<int>)
    ensures |vs| == |ps|
    ensures forall i :: 0 <= i < |ps| ==> vs[i] == ValueAt(b, ps[i])
  {
    if ps == [] then [] else Values(b, ps[..|ps| - 1]) + [ValueAt(b, ps[|ps| - 1])]
  }

  // ---------------------------------------------------------------------------
  // Creating and clearing

  /** One value per cell, each a roll of 1..9, in the order cells are filled. */
  predicate ValidFill(values: seq<int>) {
    && |values| == Rows * Cols
    && forall i :: 0 <= i < |values| ==> MinValue <= values[i] <= MaxValue
  }

  /** A new board: every cell gets a fruit, the k-th cell in row-major order
      taking the k-th injected value. */
  function FreshBoard(values: seq<int>): (b: Board)
    requires ValidFill(values)
    ensures WellFormed(b)
    ensures forall p :: InBounds(p) ==> Filled(b, p)
  {
    map r, c | 0 <= r < Rows && 0 <= c < Cols :: Pos(r, c) := Fruit(values[r * Cols + c])
  }

  /** Cell (r, c) of a fresh board holds value number r * Cols + c. */
  lemma FreshBoardAt(values: seq<int>, i: int)
    requires ValidFill(values) && 0 <= i < Rows * Cols
    ensures FreshBoard(values)[Pos(i / Cols, i % Cols)] == Fruit(values[i])
  {
    var r, c := i / Cols, i % Cols;
    assert 0 <= r < Rows && 0 <= c < Cols;
    assert r * Cols + c == i;
    assert Pos(r, c) in FreshBoard(values);
  }

  /** The board with every cell of cells emptied and all others untouched. */
  function ClearCells(b: Board, cells: seq<Pos>): (r: Board)
    ensures r.Keys == b.Keys
    ensures forall p :: p in b && p !in cells ==> r[p] == b[p]
    ensures forall p :: p in b && p in cells ==> r[p] == Empty
  {
    map p | p in b :: if p in cells then Empty else b[p]
  }

  /** Clearing preserves well-formedness. */
  lemma ClearCellsWellFormed(b: Board, cells: seq<Pos>)
    requires WellFormed(b)
    ensures WellFormed(ClearCells(b, cells))
  {
  }

  /** Clearing cells removes exactly their values from any sum. */
  lemma {:induction false} ClearCellsSum(b: Board, cells: seq<Pos>, ps: seq<Pos>)
    ensures SumOf(ClearCells(b, cells), ps) == SumOf(b, ps) - SumOf(b, Among(ps, cells))
    decreases |ps|
  {
    if ps != [] {
      var init := ps[..|ps| - 1];
      ClearCellsSum(b, cells, init);
      var last := ps[|ps| - 1];
      if last in cells {
        assert Among(ps, cells) == Among(init, cells) + [last];
        assert (Among(init, cells) + [last])[..|Among(init, cells)|] == Among(init, cells);
      }
    }
  }
}

=== FILE: properties.dfy ===
/** Properties of the session state machine: the round invariant, what a
    release does to the board and score, the input guards, and the score's
    monotonicity within a round. */
module Properties {
  import opened Grid
  import opened Rectangle
  import opened Selector
  import opened Scoring
  import opened Game

  /** Every event keeps a running round consistent. */
  lemma StepPreservesConsistent(s: Session, e: Event)
    requires Consistent(s) && WellFormedEvent(e)
    ensures Consistent(Step(s, e))
  {
    match e
    case StartClicked(values) =>
    case MenuClicked =>
    case Down(p) =>
    case Move(p) =>
    case Up =>
      if s.phase == Playing && s.selecting {
        assert StrictlySorted(NoSelection.cells);
        if IsMatch(s.sel) {
          ClearCellsWellFormed(s.board, s.sel.cells);
        }
      }
    case Second =>
  }

  /** Any sequence of events keeps a running round consistent. */
  lemma {:induction false} RunPreservesConsistent(s: Session, es: seq<Event>)
    requires Consistent(s)
    requires forall i :: 0 <= i < |es| ==> WellFormedEvent(es[i])
    ensures Consistent(Run(s, es))
    decreases |es|
  {
    if es != [] {
      StepPreservesConsistent(s, es[0]);
      RunPreservesConsistent(Step(s, es[0]), es[1..]);
    }
  }

  /** Every session the page can reach from loading is consistent. */
  lemma ReachableConsistent(es: seq<Event>)
    requires forall i :: 0 <= i < |es| ==> WellFormedEvent(es[i])
    ensures Consistent(Run(PageLoad, es))
  {
    RunPreservesConsistent(PageLoad, es);
  }

  /** Releasing a match empties exactly the selected cells, leaves every other
      cell alone, adds calculateScore of the fruit count, and takes exactly
      TargetSum off the board. */
  lemma MatchClearsAndScores(s: Session)
    requires Consistent(s) && s.phase == Playing && s.selecting && IsMatch(s.sel)
    ensures forall p :: p in s.sel.cells ==> PointerUp(s).board[p] == Empty
    ensures forall p :: p in s.board && p !in s.sel.cells ==> PointerUp(s).board[p] == s.board[p]
    ensures PointerUp(s).score == s.score + CalculateScore(|s.sel.cells|)
    ensures Total(PointerUp(s).board) == Total(s.board) - TargetSum
  {
    forall p | p in s.sel.cells
      ensures p in s.board
    {
      assert Filled(s.board, p);
    }
    MatchRemovesTargetSum(s.board, s.sel);
  }

  /** A release that does not match changes neither board nor score, and the
      selection is gone afterwards; the page flashes only when some fruit was
      selected. */
  lemma NonMatchChangesNothing(s: Session)
    requires s.phase == Playing && s.selecting && !IsMatch(s.sel)
    ensures PointerUp(s).board == s.board && PointerUp(s).score == s.score
    ensures PointerUp(s).sel == NoSelection && PointerUp(s).anchor == None
    ensures ReleaseFlashes(s) <==> s.sel.cells != []
  {
  }

  /** Outside a running round, pointer input and clock ticks change nothing at
      all, however many arrive. */
  lemma {:induction false} FrozenOutsideRound(s: Session, es: seq<Event>)
    requires s.phase != Playing
    requires forall i :: 0 <= i < |es| ==> RoundEvent(es[i])
    ensures RoundRun(s, es) == s
    decreases |es|
  {
    if es != [] {
      assert RoundEvent(es[0]);
      assert Step(s, es[0]) == s;
      FrozenOutsideRound(s, es[1..]);
    }
  }

  /** Without a start, the score never goes down and the clock never goes
      up. */
  lemma {:induction false} ScoreNeverDecreases(s: Session, es: seq<Event>)
    requires forall i :: 0 <= i < |es| ==> !es[i].StartClicked?
    ensures Run(s, es).score >= s.score
    ensures Run(s, es).timeLeft <= s.timeLeft
    decreases |es|
  {
    if es != [] {
      var t := Step(s, es[0]);
      assert t.score >= s.score && t.timeLeft <= s.timeLeft;
      ScoreNeverDecreases(t, es[1..]);
    }
  }

  /** Pressing a fruit when no drag is in progress selects that one fruit. */
  lemma DownSelectsPressedFruit(s: Session, p: Pos)
    requires Consistent(s) && s.phase == Playing && !s.selecting && Filled(s.board, p)
    ensures PointerDown(s, p).sel == Selection([p], s.board[p].value)
    ensures PointerDown(s, p).sel.cells != [] && !IsMatch(PointerDown(s, p).sel)
  {
    RecomputeSingleCell(s.board, p);
  }

  /** During a drag, the selection always agrees with the rectangle it was
      last rebuilt for: moving again onto the same cell changes nothing. */
  lemma MoveIdempotent(s: Session, p: Pos)
    ensures PointerMove(PointerMove(s, p), p) == PointerMove(s, p)
  {
  }

  /** A move that is not on the last selected cell rebuilds the selection to
      exactly the fruits of the new rectangle. */
  lemma MoveSelectsRectangle(s: Session, p: Pos)
    requires Consistent(s) && s.phase == Playing && s.selecting && p in s.board && !OnLastCell(s, p)
    ensures forall q :: q in PointerMove(s, p).sel.cells <==> InRectangle(s.anchor.value, p, q) && Filled(s.board, q)
    ensures PointerMove(s, p).sel.sum == SumOf(s.board, RectangleSelection(s.board, s.anchor.value, p))
  {
  }

  /** Pointer input and clock ticks: the events of a running round. */
  predicate RoundEvent(e: Event) {
    e.Down? || e.Move? || e.Up? || e.Second?
  }

  /** The event is a release that the page accepts as a match. */
  predicate ReleasesMatch(s: Session, e: Event) {
    e.Up? && s.phase == Playing && s.selecting && IsMatch(s.sel)
  }

  /** One event of a round removes TargetSum of fruit and pays at least as
      many points when it releases a match, and otherwise leaves the board's
      total alone without lowering the score. */
  lemma StepAccounting(s: Session, e: Event)
    requires Consistent(s) && RoundEvent(e)
    ensures ReleasesMatch(s, e) ==>
      Total(Step(s, e).board) == Total(s.board) - TargetSum && Step(s, e).score >= s.score + TargetSum
    ensures !ReleasesMatch(s, e) ==>
      Total(Step(s, e).board) == Total(s.board) && Step(s, e).score >= s.score
  {
    if ReleasesMatch(s, e) {
      MatchClearsAndScores(s);
    }
  }

  /** How many releases along a run of round events are matches. */
  function MatchCount(s: Session, es: seq<Event>): nat
    requires forall i :: 0 <= i < |es| ==> RoundEvent(es[i])
    decreases |es|
  {
    if es == [] then 0
    else
      assert RoundEvent(es[0]);
      (if ReleasesMatch(s, es[0]) then 1 else 0) + MatchCount(Step(s, es[0]), es[1..])
  }

  /** Pointer input and ticks need no well-formedness side condition. */
  lemma RoundEventsWellFormed(es: seq<Event>)
    requires forall i :: 0 <= i < |es| ==> RoundEvent(es[i])
    ensures forall i :: 0 <= i < |es| ==> WellFormedEvent(es[i])
  {
    forall i | 0 <= i < |es|
      ensures WellFormedEvent(es[i])
    {
      assert RoundEvent(es[i]);
    }
  }

  /** A run of pointer input and ticks. */
  function RoundRun(s: Session, es: seq<Event>): Session
    requires forall i :: 0 <= i < |es| ==> RoundEvent(es[i])
  {
    RoundEventsWellFormed(es);
    Run(s, es)
  }

  /** The board total at the end of a run of round events. */
  function TotalAfter(s: Session, es: seq<Event>): int
    requires forall i :: 0 <= i < |es| ==> RoundEvent(es[i])
  {
    Total(RoundRun(s, es).board)
  }

  /** The score at the end of a run of round events. */
  function ScoreAfter(s: Session, es: seq<Event>): int
    requires forall i :: 0 <= i < |es| ==> RoundEvent(es[i])
  {
    RoundRun(s, es).score
  }

  /** Over any run of pointer input and ticks, every matched release removes
      exactly TargetSum of fruit and nothing else removes any, and the score
      gained is at least the fruit removed. */
  lemma {:induction false} RunAccounting(s: Session, es: seq<Event>)
    requires Consistent(s)
    requires forall i :: 0 <= i < |es| ==> RoundEvent(es[i])
    ensures TotalAfter(s, es) == Total(s.board) - TargetSum * MatchCount(s, es)
    ensures ScoreAfter(s, es) >= s.score + TargetSum * MatchCount(s, es)
    decreases |es|
  {
    if es != [] {
      var t := Step(s, es[0]);
      var rest := es[1..];
      assert RoundEvent(es[0]);
      StepAccounting(s, es[0]);
      StepPreservesConsistent(s, es[0]);
      RunAccounting(t, rest);
      assert Run(s, es) == Run(t, rest);
    }
  }

  /** Within a round, fruit only ever disappears: no cell is added or
      removed, and every cell that still holds a fruit holds the one it held
      at the start of the run. */
  lemma {:induction false} FruitsOnlyDisappear(s: Session, es: seq<Event>)
    requires forall i :: 0 <= i < |es| ==> RoundEvent(es[i])
    ensures RoundRun(s, es).board.Keys == s.board.Keys
    ensures forall p :: Filled(RoundRun(s, es).board, p) ==> RoundRun(s, es).board[p] == s.board[p]
    decreases |es|
  {
    if es != [] {
      assert RoundEvent(es[0]);
      FruitsOnlyDisappear(Step(s, es[0]), es[1..]);
      assert RoundRun(s, es) == RoundRun(Step(s, es[0]), es[1..]);
    }
  }
}

=== FILE: rectangle.dfy ===
/** The axis-aligned rectangle spanned by the cell where a drag started and
    the cell under the pointer, enumerated row by row from the top and left
    to right within a row, keeping only coordinates that have a cell on the
    board. The same enumeration over the whole board is the order in which
    cells are created and filled. */
module Rectangle {
  import opened Grid

  function Min(a: int, b: int): int { if a <= b then a else b }

  function Max(a: int, b: int): int { if a <= b then b else a }

  /** p lies between the two corners, whichever way round they are given. */
  predicate InRectangle(start: Pos, end: Pos, p: Pos) {
    && Min(start.row, end.row) <= p.row <= Max(start.row, end.row)
    && Min(start.col, end.col) <= p.col <= Max(start.col, end.col)
  }

  /** The cells (r, c0), ..., (r, c1) that exist on the board, left to right. */
  function RowCells(board: Board, r: int, c0: int, c1: int): (ps: seq<Pos>)
    ensures forall p {:trigger p in ps} :: p in ps <==> p.row == r && c0 <= p.col <= c1 && p in board
    decreases c1 - c0
  {
    if c1 < c0 then []
    else RowCells(board, r, c0, c1 - 1) + (if Pos(r, c1) in board then [Pos(r, c1)] else [])
  }

  /** The cells of rows r0..r1 and columns c0..c1 that exist on the board,
      row by row. */
  function BlockCells(board: Board, r0: int, r1: int, c0: int, c1: int): (ps: seq<Pos>)
    ensures forall p {:trigger p in ps} :: p in ps <==> r0 <= p.row <= r1 && c0 <= p.col <= c1 && p in board
    decreases r1 - r0
  {
    if r1 < r0 then [] else BlockCells(board, r0, r1 - 1, c0, c1) + RowCells(board, r1, c0, c1)
  }

  lemma {:induction false} RowCellsSorted(board: Board, r: int, c0: int, c1: int)
    ensures StrictlySorted(RowCells(board, r, c0, c1))
    decreases c1 - c0
  {
    if c0 <= c1 {
      RowCellsSorted(board, r, c0, c1 - 1);
      SortedConcat(RowCells(board, r, c0, c1 - 1), if Pos(r, c1) in board then [Pos(r, c1)] else []);
    }
  }

  lemma {:induction false} BlockCellsSorted(board: Board, r0: int, r1: int, c0: int, c1: int)
    ensures StrictlySorted(BlockCells(board, r0, r1, c0, c1))
    decreases r1 - r0
  {
    if r0 <= r1 {
      BlockCellsSorted(board, r0, r1 - 1, c0, c1);
      RowCellsSorted(board, r1, c0, c1);
      SortedConcat(BlockCells(board, r0, r1 - 1, c0, c1), RowCells(board, r1, c0, c1));
    }
  }

  /** The cells of the rectangle between start and end that exist on the
      board, in row-major order. */
  function RectangleSelection(board: Board, start: Pos, end: Pos): (r: seq<Pos>)
    ensures forall p {:trigger p in r} :: p in r <==> InRectangle(start, end, p) && p in board
    ensures StrictlySorted(r)
  {
    var r0, r1 := Min(start.row, end.row), Max(start.row, end.row);
    var c0, c1 := Min(start.col, end.col), Max(start.col, end.col);
    BlockCellsSorted(board, r0, r1, c0, c1);
    BlockCells(board, r0, r1, c0, c1)
  }

  /** Swapping the corners selects the same cells in the same order. */
  lemma RectangleSymmetric(board: Board, start: Pos, end: Pos)
    ensures RectangleSelection(board, start, end) == RectangleSelection(board, end, start)
  {
    SortedUnique(RectangleSelection(board, start, end), RectangleSelection(board, end, start));
  }

  /** A drag that has not left its first cell selects just that cell. */
  lemma RectangleSingleCell(board: Board, p: Pos)
    requires p in board
    ensures RectangleSelection(board, p, p) == [p]
  {
    SortedUnique(RectangleSelection(board, p, p), [p]);
  }

  /** The page's nested scan: rows minRow..maxRow, and in each row the
      columns minCol..maxCol, keeping the coordinates that have a cell. */
  method CalculateRectangleSelection(board: Board, start: Pos, end: Pos) returns (selection: seq<Pos>)
    ensures selection == RectangleSelection(board, start, end)
  {
    var minRow, maxRow := Min(start.row, end.row), Max(start.row, end.row);
    var minCol, maxCol := Min(start.col, end.col), Max(start.col, end.col);
    selection := [];
    var r := minRow;
    while r <= maxRow
      invariant minRow <= r <= maxRow + 1
      invariant selection == BlockCells(board, minRow, r - 1, minCol, maxCol)
      decreases maxRow - r
    {
      ghost var upper := selection;
      var c := minCol;
      while c <= maxCol
        invariant minCol <= c <= maxCol + 1
        invariant selection == upper + RowCells(board, r, minCol, c - 1)
        decreases maxCol - c
      {
        if Pos(r, c) in board {
          selection := selection + [Pos(r, c)];
        }
        c := c + 1;
      }
      r := r + 1;
    }
  }

  // ---------------------------------------------------------------------------
  // The whole board

  /** Every cell of the board, in the order the page creates and fills them. */
  function GridOrder(board: Board): (ps: seq<Pos>)
    ensures forall p {:trigger p in ps} :: p in ps <==> InBounds(p) && p in board
  {
    BlockCells(board, 0, Rows - 1, 0, Cols - 1)
  }

  /** The total of all fruit still on the board. */
  function Total(board: Board): int {
    SumOf(board, GridOrder(board))
  }

  /** Every in-bounds coordinate has a cell. */
  ghost predicate Complete(board: Board) {
    forall p :: InBounds(p) ==> p in board
  }

  lemma {:induction false} RowCellsIndex(board: Board, r: int, c1: int)
    requires Complete(board) && 0 <= r < Rows && -1 <= c1 < Cols
    ensures |RowCells(board, r, 0, c1)| == c1 + 1
    ensures forall j :: 0 <= j <= c1 ==> RowCells(board, r, 0, c1)[j] == Pos(r, j)
    decreases c1
  {
    if c1 >= 0 {
      RowCellsIndex(board, r, c1 - 1);
      assert InBounds(Pos(r, c1));
    }
  }

  lemma {:induction false} BlockCellsIndex(board: Board, r1: int)
    requires Complete(board) && -1 <= r1 < Rows
    ensures |BlockCells(board, 0, r1, 0, Cols - 1)| == (r1 + 1) * Cols
    ensures forall i :: 0 <= i < (r1 + 1) * Cols ==> BlockCells(board, 0, r1, 0, Cols - 1)[i] == Pos(i / Cols, i % Cols)
    decreases r1
  {
    if r1 >= 0 {
      BlockCellsIndex(board, r1 - 1);
      RowCellsIndex(board, r1, Cols - 1);
      var upper := BlockCells(board, 0, r1 - 1, 0, Cols - 1);
      var row := RowCells(board, r1, 0, Cols - 1);
      forall i | 0 <= i < (r1 + 1) * Cols
        ensures (upper + row)[i] == Pos(i / Cols, i % Cols)
      {
        if i >= r1 * Cols {
          var j := i - r1 * Cols;
          assert i / Cols == r1 && i % Cols == j;
        }
      }
    }
  }

  /** On a complete board, cell (r, c) comes at index r * Cols + c. */
  lemma GridOrderIndex(board: Board)
    requires Complete(board)
    ensures |GridOrder(board)| == Rows * Cols
    ensures forall i :: 0 <= i < Rows * Cols ==> GridOrder(board)[i] == Pos(i / Cols, i % Cols)
  {
    BlockCellsIndex(board, Rows - 1);
  }

  /** Reading a fresh board in creation order gives back the injected values,
      one per cell. */
  lemma FreshBoardRoundTrip(values: seq<int>)
    requires ValidFill(values)
    ensures Values(FreshBoard(values), GridOrder(FreshBoard(values))) == values
  {
    var b := FreshBoard(values);
    var order := GridOrder(b);
    GridOrderIndex(b);
    var vs := Values(b, order);
    assert |vs| == |values|;
    forall i | 0 <= i < |values|
      ensures vs[i] == values[i]
    {
      assert order[i] == Pos(i / Cols, i % Cols);
      assert vs[i] == ValueAt(b, order[i]);
      FreshBoardAt(values, i);
    }
  }

  /** Two boards with the same cells enumerate them identically. */
  lemma GridOrderSameKeys(b1: Board, b2: Board)
    requires b1.Keys == b2.Keys
    ensures GridOrder(b1) == GridOrder(b2)
  {
    BlockCellsSorted(b1, 0, Rows - 1, 0, Cols - 1);
    BlockCellsSorted(b2, 0, Rows - 1, 0, Cols - 1);
    SortedUnique(GridOrder(b1), GridOrder(b2));
  }

  /** Clearing the cells of a sorted, in-bounds selection takes exactly
      their total off the board. */
  lemma ClearCellsTotal(board: Board, cells: seq<Pos>)
    requires StrictlySorted(cells)
    requires forall p :: p in cells ==> InBounds(p) && p in board
    ensures Total(ClearCells(board, cells)) == Total(board) - SumOf(board, cells)
  {
    var order := GridOrder(board);
    GridOrderSameKeys(ClearCells(board, cells), board);
    ClearCellsSum(board, cells, order);
    BlockCellsSorted(board, 0, Rows - 1, 0, Cols - 1);
    FilterSorted(order, set p | p in cells);
    SortedUnique(Among(order, cells), cells);
  }
}

=== FILE: scenarios.dfy ===
/** Whole drags played through the session: a pair that matches, a triple
    that matches, a pair that falls short, and the case where the page keeps
    a selection that no longer fits the rectangle under the pointer. */
module Scenarios {
  import opened Grid
  import opened Rectangle
  import opened Selector
  import opened Scoring
  import opened Game

  /** The fruits of the rectangle from (0, 0) to (0, 1), when both cells hold
      one, are those two cells in order. */
  lemma PairCells(board: Board)
    requires Filled(board, Pos(0, 0)) && Filled(board, Pos(0, 1))
    ensures Recompute(board, Pos(0, 0), Pos(0, 1)).cells == [Pos(0, 0), Pos(0, 1)]
  {
    var cells := Recompute(board, Pos(0, 0), Pos(0, 1)).cells;
    var want := [Pos(0, 0), Pos(0, 1)];
    forall q | q in cells
      ensures q in want
    {
      assert InRectangle(Pos(0, 0), Pos(0, 1), q);
      assert q == Pos(0, 0) || q == Pos(0, 1);
    }
    SortedUnique(cells, want);
  }

  /** Dragging from (0, 0) to (0, 1) over two fruits selects both, in order. */
  lemma PairSelection(board: Board)
    requires Filled(board, Pos(0, 0)) && Filled(board, Pos(0, 1))
    ensures Recompute(board, Pos(0, 0), Pos(0, 1))
         == Selection([Pos(0, 0), Pos(0, 1)], board[Pos(0, 0)].value + board[Pos(0, 1)].value)
  {
    var want := [Pos(0, 0), Pos(0, 1)];
    PairCells(board);
    assert want[..1] == [Pos(0, 0)] && want[..1][..0] == [];
    assert SumOf(board, [Pos(0, 0)]) == ValueAt(board, Pos(0, 0));
    assert SumOf(board, want) == SumOf(board, [Pos(0, 0)]) + ValueAt(board, Pos(0, 1));
  }

  /** The fruits of the rectangle from (0, 0) to (0, 2), when all three cells
      hold one, are those three cells in order. */
  lemma TripleCells(board: Board)
    requires Filled(board, Pos(0, 0)) && Filled(board, Pos(0, 1)) && Filled(board, Pos(0, 2))
    ensures Recompute(board, Pos(0, 0), Pos(0, 2)).cells == [Pos(0, 0), Pos(0, 1), Pos(0, 2)]
  {
    var cells := Recompute(board, Pos(0, 0), Pos(0, 2)).cells;
    var want := [Pos(0, 0), Pos(0, 1), Pos(0, 2)];
    forall q | q in cells
      ensures q in want
    {
      assert InRectangle(Pos(0, 0), Pos(0, 2), q);
      assert q == Pos(0, 0) || q == Pos(0, 1) || q == Pos(0, 2);
    }
    SortedUnique(cells, want);
  }

  /** Dragging from (0, 0) to (0, 2) over three fruits selects all three. */
  lemma TripleSelection(board: Board)
    requires Filled(board, Pos(0, 0)) && Filled(board, Pos(0, 1)) && Filled(board, Pos(0, 2))
    ensures Recompute(board, Pos(0, 0), Pos(0, 2))
         == Selection([Pos(0, 0), Pos(0, 1), Pos(0, 2)],
                      board[Pos(0, 0)].value + board[Pos(0, 1)].value + board[Pos(0, 2)].value)
  {
    var want := [Pos(0, 0), Pos(0, 1), Pos(0, 2)];
    TripleCells(board);
    assert want[..2] == [Pos(0, 0), Pos(0, 1)] && want[..2][..1] == [Pos(0, 0)] && want[..2][..1][..0] == [];
    assert SumOf(board, [Pos(0, 0)]) == ValueAt(board, Pos(0, 0));
    assert SumOf(board, [Pos(0, 0), Pos(0, 1)]) == SumOf(board, [Pos(0, 0)]) + ValueAt(board, Pos(0, 1));
    assert SumOf(board, want) == SumOf(board, [Pos(0, 0), Pos(0, 1)]) + ValueAt(board, Pos(0, 2));
  }

  /** The drag of the two-cell examples: press on (0, 0), move to (0, 1). */
  function DragPair(s: Session): Session {
    PointerMove(PointerDown(s, Pos(0, 0)), Pos(0, 1))
  }

  /** During a drag, a move onto a board cell other than the last selected
      one replaces the selection by the rebuilt one for the new rectangle. */
  lemma MoveRebuilds(s: Session, p: Pos)
    requires s.phase == Playing && s.selecting && s.anchor.Some? && p in s.board && !OnLastCell(s, p)
    ensures PointerMove(s, p) == s.(sel := Recompute(s.board, s.anchor.value, p), selBoard := s.boardId)
  {
  }

  /** Pressing the filled corner (0, 0) when no drag is in progress starts
      a drag there that holds just that fruit; returns the new session. */
  lemma PressCorner(s: Session) returns (s1: Session)
    requires s.phase == Playing && !s.selecting && s.sel == NoSelection
    requires Filled(s.board, Pos(0, 0))
    ensures s1 == PointerDown(s, Pos(0, 0))
    ensures s1 == s.(selecting := true, anchor := Some(Pos(0, 0)), selBoard := s.boardId,
                     sel := Selection([Pos(0, 0)], s.board[Pos(0, 0)].value))
  {
    RecomputeSingleCell(s.board, Pos(0, 0));
    var pressed := s.(selecting := true, anchor := Some(Pos(0, 0)));
    assert !OnLastCell(pressed, Pos(0, 0));
    s1 := pressed.(sel := Recompute(s.board, Pos(0, 0), Pos(0, 0)), selBoard := s.boardId);
    assert PointerDown(s, Pos(0, 0)) == UpdateSelection(pressed, Pos(0, 0));
  }

  /** Pressing the fruit at (0, 0) and moving to another board cell starts a
      drag anchored at (0, 0) whose selection is the one rebuilt for the
      rectangle up to that cell. */
  lemma PressThenMove(s: Session, p: Pos)
    requires s.phase == Playing && !s.selecting && s.sel == NoSelection
    requires Filled(s.board, Pos(0, 0)) && p in s.board && p != Pos(0, 0)
    ensures PointerMove(PointerDown(s, Pos(0, 0)), p)
         == s.(selecting := true, anchor := Some(Pos(0, 0)), selBoard := s.boardId,
               sel := Recompute(s.board, Pos(0, 0), p))
  {
    var s1 := PressCorner(s);
    assert !OnLastCell(s1, p);
    MoveRebuilds(s1, p);
  }

  /** Pressing on (0, 0) and moving to (0, 1) starts a drag anchored at
      (0, 0) whose selection is the one rebuilt for that rectangle. */
  lemma DragPairShape(s: Session)
    requires s.phase == Playing && !s.selecting && s.sel == NoSelection
    requires Filled(s.board, Pos(0, 0)) && Filled(s.board, Pos(0, 1))
    ensures DragPair(s) == s.(selecting := true, anchor := Some(Pos(0, 0)), selBoard := s.boardId,
                              sel := Recompute(s.board, Pos(0, 0), Pos(0, 1)))
  {
    PressThenMove(s, Pos(0, 1));
  }

  /** The session after pressing on (0, 0) and moving to (0, 1) over two
      fruits, when no drag was in progress. */
  lemma DragPairState(s: Session)
    requires s.phase == Playing && !s.selecting && s.sel == NoSelection
    requires Filled(s.board, Pos(0, 0)) && Filled(s.board, Pos(0, 1))
    ensures DragPair(s) == s.(selecting := true, anchor := Some(Pos(0, 0)), selBoard := s.boardId,
                              sel := Selection([Pos(0, 0), Pos(0, 1)], s.board[Pos(0, 0)].value + s.board[Pos(0, 1)].value))
  {
    DragPairShape(s);
    PairSelection(s.board);
  }

  /** A 4 next to a 6: the release clears both and scores 10. */
  lemma PairMatches(s: Session)
    requires s.phase == Playing && !s.selecting && s.sel == NoSelection
    requires Pos(0, 0) in s.board && s.board[Pos(0, 0)] == Fruit(4)
    requires Pos(0, 1) in s.board && s.board[Pos(0, 1)] == Fruit(6)
    ensures DragPair(s).sel == Selection([Pos(0, 0), Pos(0, 1)], 10)
    ensures PointerUp(DragPair(s)).score == s.score + 10
    ensures PointerUp(DragPair(s)).board == ClearCells(s.board, [Pos(0, 0), Pos(0, 1)])
  {
    DragPairState(s);
  }

  /** The session after pressing on (0, 0) and moving to (0, 2) over three
      fruits, when no drag was in progress. */
  lemma DragTripleState(s: Session)
    requires s.phase == Playing && !s.selecting && s.sel == NoSelection
    requires Filled(s.board, Pos(0, 0)) && Filled(s.board, Pos(0, 1)) && Filled(s.board, Pos(0, 2))
    ensures PointerMove(PointerDown(s, Pos(0, 0)), Pos(0, 2))
         == s.(selecting := true, anchor := Some(Pos(0, 0)), selBoard := s.boardId,
               sel := Recompute(s.board, Pos(0, 0), Pos(0, 2)))
  {
    PressThenMove(s, Pos(0, 2));
  }

  /** A 3, a 3 and a 4 in a row: the release clears all three and scores
      10 + 5 = 15. */
  lemma TripleMatches(s: Session)
    requires s.phase == Playing && !s.selecting && s.sel == NoSelection
    requires Pos(0, 0) in s.board && s.board[Pos(0, 0)] == Fruit(3)
    requires Pos(0, 1) in s.board && s.board[Pos(0, 1)] == Fruit(3)
    requires Pos(0, 2) in s.board && s.board[Pos(0, 2)] == Fruit(4)
    ensures var t := PointerMove(PointerDown(s, Pos(0, 0)), Pos(0, 2));
      && t.sel == Selection([Pos(0, 0), Pos(0, 1), Pos(0, 2)], 10)
      && PointerUp(t).score == s.score + 15
      && PointerUp(t).board == ClearCells(s.board, [Pos(0, 0), Pos(0, 1), Pos(0, 2)])
  {
    DragTripleState(s);
    TripleSelection(s.board);
  }

  /** A 3 next to a 4 adds up to 7: the release flashes, and board and score
      stay as they were. */
  lemma PairFallsShort(s: Session)
    requires s.phase == Playing && !s.selecting && s.sel == NoSelection
    requires Pos(0, 0) in s.board && s.board[Pos(0, 0)] == Fruit(3)
    requires Pos(0, 1) in s.board && s.board[Pos(0, 1)] == Fruit(4)
    ensures DragPair(s).sel == Selection([Pos(0, 0), Pos(0, 1)], 7)
    ensures ReleaseFlashes(DragPair(s))
    ensures PointerUp(DragPair(s)).board == s.board
    ensures PointerUp(DragPair(s)).score == s.score
    ensures PointerUp(DragPair(s)).sel == NoSelection
  {
    DragPairState(s);
  }

  /** The fruits of the rectangle from (0, 0) to (2, 2) when (1, 2) and row 2
      are empty, in row-major order: the last of them is (1, 1). */
  lemma StaleRectangleOrder(board: Board, cells: seq<Pos>)
    requires Filled(board, Pos(0, 0)) && Filled(board, Pos(0, 1)) && Filled(board, Pos(0, 2))
    requires Filled(board, Pos(1, 0)) && Filled(board, Pos(1, 1)) && !Filled(board, Pos(1, 2))
    requires !Filled(board, Pos(2, 0)) && !Filled(board, Pos(2, 1)) && !Filled(board, Pos(2, 2))
    requires StrictlySorted(cells)
    requires forall q :: q in cells <==> InRectangle(Pos(0, 0), Pos(2, 2), q) && Filled(board, q)
    ensures cells == [Pos(0, 0), Pos(0, 1), Pos(0, 2), Pos(1, 0), Pos(1, 1)]
  {
    var want := [Pos(0, 0), Pos(0, 1), Pos(0, 2), Pos(1, 0), Pos(1, 1)];
    forall q | q in cells
      ensures q in want
    {
      assert 0 <= q.row <= 1 && 0 <= q.col <= 2 && q != Pos(1, 2);
    }
    SortedUnique(cells, want);
  }

  lemma StaleRectangleCells(board: Board)
    requires Filled(board, Pos(0, 0)) && Filled(board, Pos(0, 1)) && Filled(board, Pos(0, 2))
    requires Filled(board, Pos(1, 0)) && Filled(board, Pos(1, 1)) && !Filled(board, Pos(1, 2))
    requires !Filled(board, Pos(2, 0)) && !Filled(board, Pos(2, 1)) && !Filled(board, Pos(2, 2))
    ensures Recompute(board, Pos(0, 0), Pos(2, 2)).cells == [Pos(0, 0), Pos(0, 1), Pos(0, 2), Pos(1, 0), Pos(1, 1)]
  {
    StaleRectangleOrder(board, Recompute(board, Pos(0, 0), Pos(2, 2)).cells);
  }

  /** The page keeps the old selection when the pointer reaches the last
      selected cell, even if the rectangle has shrunk. Anchored at (0, 0)
      with the pointer at (2, 2), where (1, 2) and all of row 2 inside the
      rectangle are empty, the last selected fruit is (1, 1). Moving back to
      (1, 1) keeps (0, 2) selected although it is outside the new
      rectangle. */
  lemma GuardKeepsStaleSelection(s: Session)
    requires s.phase == Playing && s.selecting && s.anchor == Some(Pos(0, 0))
    requires Filled(s.board, Pos(0, 0)) && Filled(s.board, Pos(0, 1)) && Filled(s.board, Pos(0, 2))
    requires Filled(s.board, Pos(1, 0)) && Filled(s.board, Pos(1, 1)) && !Filled(s.board, Pos(1, 2))
    requires !Filled(s.board, Pos(2, 0)) && !Filled(s.board, Pos(2, 1)) && !Filled(s.board, Pos(2, 2))
    requires s.sel == Recompute(s.board, Pos(0, 0), Pos(2, 2)) && s.selBoard == s.boardId
    ensures PointerMove(s, Pos(1, 1)) == s
    ensures Pos(0, 2) in PointerMove(s, Pos(1, 1)).sel.cells
    ensures PointerMove(s, Pos(1, 1)).sel != Recompute(s.board, Pos(0, 0), Pos(1, 1))
  {
    StaleRectangleCells(s.board);
    assert s.sel.cells[4] == Pos(1, 1) && s.sel.cells[2] == Pos(0, 2);
    assert OnLastCell(s, Pos(1, 1));
    assert !InRectangle(Pos(0, 0), Pos(1, 1), Pos(0, 2));
  }
}

=== FILE: scoring.dfy ===
/** The match rule and the points a match earns. */
module Scoring {
  import opened Grid
  import opened Rectangle
  import opened Selector

  /** Points for clearing n fruits at once: 10 for a pair, and 5 more for
      every fruit beyond the second. */
  function CalculateScore(n: nat): (points: int)
    ensures points >= 10
    ensures n <= 2 ==> points == 10
  {
    10 + Max(0, n - 2) * 5
  }

  /** A released selection counts when its fruits add up to the target and
      there are at least two of them. */
  predicate IsMatch(sel: Selection) {
    sel.sum == TargetSum && |sel.cells| > 1
  }

  /** Each fruit beyond the second is worth exactly five more points. */
  lemma ScoreGrowth(n: nat)
    requires n >= 2
    ensures CalculateScore(n + 1) == CalculateScore(n) + 5
    ensures CalculateScore(2) == 10 && CalculateScore(3) == 15
  {
  }

  /** A single fruit never matches, whatever its value. */
  lemma SingleCellNeverMatches(sel: Selection)
    requires |sel.cells| <= 1
    ensures !IsMatch(sel)
  {
  }

  /** On a board of fruits worth at most MaxValue, one fruit can never even
      reach the target on its own. */
  lemma SingleFruitBelowTarget(board: Board, sel: Selection)
    requires WellFormed(board) && Valid(board, sel) && |sel.cells| == 1
    ensures sel.sum < TargetSum
  {
    var p := sel.cells[0];
    assert sel.cells == [p];
    assert [p][..0] == [];
    assert SumOf(board, [p]) == ValueAt(board, p);
    assert Filled(board, p);
  }

  /** Clearing a matched selection takes exactly TargetSum off the board. */
  lemma MatchRemovesTargetSum(board: Board, sel: Selection)
    requires WellFormed(board) && Valid(board, sel) && IsMatch(sel)
    ensures Total(ClearCells(board, sel.cells)) == Total(board) - TargetSum
  {
    forall p | p in sel.cells
      ensures InBounds(p) && p in board
    {
      assert Filled(board, p);
    }
    ClearCellsTotal(board, sel.cells);
  }
}

=== FILE: selector.dfy ===
/** The current selection: the fruit-bearing cells of the drag rectangle, in
    rectangle order, together with the total of their values. Empty cells
    inside the rectangle are part of its geometry but not of the selection. */
module Selector {
  import opened Grid
  import opened Rectangle

  datatype Selection = Selection(cells: seq<Pos>, sum: int)

  const NoSelection: Selection := Selection([], 0)

  /** A selection that agrees with the board: its cells are distinct, in
      row-major order, all still hold fruit, and its sum is their total. */
  ghost predicate Valid(board: Board, sel: Selection) {
    && StrictlySorted(sel.cells)
    && (forall p :: p in sel.cells ==> Filled(board, p))
    && sel.sum == SumOf(board, sel.cells)
  }

  /** Walks the scanned cells in order, keeping those with a fruit and adding
      up their values. The kept cells are the scan with the empty and missing
      cells dropped, in the order they were scanned. */
  function Collect(board: Board, ps: seq<Pos>): (sel: Selection)
    ensures sel.cells == Filter(ps, FruitCells(board))
    ensures forall p {:trigger p in sel.cells} :: p in sel.cells <==> p in ps && Filled(board, p)
    ensures sel.sum == SumOf(board, ps)
    ensures sel.sum == SumOf(board, sel.cells)
    ensures |sel.cells| <= |ps|
    ensures StrictlySorted(ps) ==> StrictlySorted(sel.cells)
  {
    FilterKeepsOrder(ps, FruitCells(board));
    if ps == [] then NoSelection
    else
      var prev := Collect(board, ps[..|ps| - 1]);
      var p := ps[|ps| - 1];
      if Filled(board, p) then
        assert (prev.cells + [p])[..|prev.cells|] == prev.cells;
        Selection(prev.cells + [p], prev.sum + board[p].value)
      else prev
  }

  /** The selection for a drag from anchor to cursor, rebuilt from scratch. */
  function Recompute(board: Board, anchor: Pos, cursor: Pos): (sel: Selection)
    ensures forall p {:trigger p in sel.cells} :: p in sel.cells <==> InRectangle(anchor, cursor, p) && Filled(board, p)
    ensures sel.sum == SumOf(board, RectangleSelection(board, anchor, cursor))
    ensures Valid(board, sel)
  {
    Collect(board, RectangleSelection(board, anchor, cursor))
  }

  /** A drag that has not left its filled first cell selects exactly that
      fruit. */
  lemma RecomputeSingleCell(board: Board, p: Pos)
    requires Filled(board, p)
    ensures Recompute(board, p, p) == Selection([p], board[p].value)
  {
    RectangleSingleCell(board, p);
    assert [p][..0] == [];
  }

  /** The rebuilt selection depends on the anchor and cursor only through
      the rectangle they span. */
  lemma RecomputeSymmetric(board: Board, anchor: Pos, cursor: Pos)
    ensures Recompute(board, anchor, cursor) == Recompute(board, cursor, anchor)
  {
    RectangleSymmetric(board, anchor, cursor);
  }

  /** Scanning one more cell either keeps the selection or appends that cell
      and adds its value, according to whether it holds a fruit. */
  lemma CollectStep(board: Board, ps: seq<Pos>, p: Pos)
    ensures Collect(board, ps + [p])
         == if Filled(board, p)
            then Selection(Collect(board, ps).cells + [p], Collect(board, ps).sum + board[p].value)
            else Collect(board, ps)
  {
    assert (ps + [p])[..|ps|] == ps;
  }

  /** The loop of the page's selection update: one pass over the rectangle,
      pushing every cell that holds a fruit and accumulating the sum. */
  method ScanSelection(board: Board, rect: seq<Pos>) returns (sel: Selection)
    ensures sel == Collect(board, rect)
  {
    var cells: seq<Pos> := [];
    var sum := 0;
    var i := 0;
    while i < |rect|
      invariant 0 <= i <= |rect|
      invariant Selection(cells, sum) == Collect(board, rect[..i])
    {
      var p := rect[i];
      assert rect[..i + 1] == rect[..i] + [p];
      CollectStep(board, rect[..i], p);
      if p in board && board[p].Fruit? {
        cells := cells + [p];
        sum := sum + board[p].value;
      }
      i := i + 1;
    }
    assert rect[..|rect|] == rect;
    sel := Selection(cells, sum);
  }
}
